=== FILE: README.md ===
# mfe-host navigation core, modelled in Dafny

The host is a micro-frontend shell. It owns the header, the sidebar and the
content area, and it loads two remote modules ("module-one", "module-two") at
runtime. Its logic is small:

- a static registry of remote modules, and a first-match-wins resolver from a
  pathname to a module key (`src/config/modules.ts`);
- the shell's derivation of the current module and the current action from the
  pathname, plus the header's active link (`src/components/Shell.tsx`);
- the sidebar's `(actions, loading)` state machine, driven by changes of the
  current module and by action-list loads that settle later. The sidebar also
  renders a loading placeholder, an empty placeholder or a list of buttons
  (`src/components/Sidebar.tsx`).

Files:

- `paths.dfy` (module `Paths`): JavaScript's `startsWith`, `split("/")` (empty
  pieces kept) and `filter(Boolean)`. Also `Join`, the inverse of `Split`, and
  the segment lemmas.
- `registry.dfy` (module `Registry`): `ModuleKey`, `RemoteModuleKey`, the
  `MODULES` table, `MODULE_KEYS`, `getModuleByPath`.
- `sidebar.dfy` (module `Sidebar`): the sidebar's state and events, its
  effect, its render, and the navigation target of a button.
- `shell.dfy` (module `Shell`): `currentModule`, `currentAction`, the header,
  and how the shell feeds the sidebar. It imports `Sidebar` because the shell
  renders it. It holds the round trips between the two components.

React's scheduling is replaced by explicit events applied in order. A prop
change is one event. Each action-list load gets an id when it starts, and its
completion is a separate `LoadSettled` event, so completions can interleave
with navigation and with each other in any order. The dynamic import behind a
load is foreign. Its outcome is the event's parameter: `Loaded(actions)` or
`LoadFailed`.

Three points where the code is easy to misread; the model follows it as
written:

- The resolver is a raw `startsWith` scan in table order, not a
  segment-aware longest-prefix match.
- Entering "home" clears the list but does not reset `loading`.
- A stale load's result is applied whatever module is current by then. The
  model keeps this race as the source has it, and lemmas exhibit it.

## Model

| member | source | states |
|---|---|---|
| Registry.KeyName | src/config/modules.ts:6 | every key is written as a non-empty string without '/', so it can stand as one URL segment |
| Registry.Modules | src/config/modules.ts:19-40 | the table has exactly the remote keys; each entry's `key` field is its own record key, and its path is "/" followed by that key |
| Registry.ModuleKeys | src/config/modules.ts:42 | `MODULE_KEYS` lists every registered key exactly once and nothing else |
| Registry.ScanIndex | src/config/modules.ts:45-49 | the loop stops at the first position whose prefix matches; no earlier key matches; it runs off the end only when none matches |
| Registry.FirstMatch | src/config/modules.ts:44-51 | returns "home" exactly when no key in the list matches; otherwise returns a matching key with no matching key before it |
| Registry.GetModuleByPath | src/config/modules.ts:44-51 | the scan over `MODULE_KEYS` with `Matches` (the `startsWith` test of line 46); total on all strings; a remote result's registered path is a prefix of the pathname; "home" exactly when no registered path is a prefix |
| Registry.GetModuleByPathLiteral | src/config/modules.ts:19-51 | with the paths written out: "home" iff neither "/module-one" nor "/module-two" starts the pathname, and each remote key iff its own prefix does |
| Registry.PrefixesDisjoint | src/config/modules.ts:23-33 | neither registered path is a prefix of the other |
| Registry.OneMatchAtMost | src/config/modules.ts:19-49 | at most one registered path is a prefix of any pathname |
| Registry.FirstMatchIsTheMatch | src/config/modules.ts:44-51 | whenever a key in the scanned list matches, the scan returns that key, wherever it stands in the list |
| Registry.OrderIrrelevant | src/config/modules.ts:42-49 | any two orderings of the same registered keys resolve every pathname to the same key |
| Registry.RawPrefixMatching | src/config/modules.ts:46 | matching is a raw prefix test: "/module-one" followed by any suffix ("", "/", "/sort-users", "X") resolves to module-one, and likewise for module-two |
| Paths.Split | src/components/Shell.tsx:31 | `split("/")` yields at least one piece, no piece contains '/', the first piece is a prefix of the input, and it is non-empty when the input starts with a non-slash |
| Paths.JoinSplit | src/components/Shell.tsx:31 | joining the pieces of a split with '/' gives back the original string |
| Paths.SplitJoin | src/components/Shell.tsx:31 | splitting the join of slash-free pieces gives back exactly those pieces |
| Paths.NonEmpty | src/components/Shell.tsx:31 | `filter(Boolean)` keeps exactly the non-empty pieces and no others |
| Paths.NonEmptyAppend | src/components/Shell.tsx:31 | filtering a concatenation is the concatenation of the filtered parts |
| Paths.Segments | src/components/Shell.tsx:31 | every segment of a path is non-empty and contains no '/' |
| Paths.SegmentsLeadingSlash | src/components/Shell.tsx:31 | an extra leading slash does not change a path's segments |
| Paths.SegmentsLeadingSlashes | src/components/Shell.tsx:31 | any run of leading slashes, including none, leaves a path's segments unchanged |
| Paths.FirstSegmentAfterSlash | src/components/Shell.tsx:31 | when a path is '/' and then a non-slash character, "/" + its first segment is a prefix of the path |
| Shell.CurrentModule | src/components/Shell.tsx:24-28 | a remote result's "/" + key starts the pathname; "home" exactly when no remote "/" + key does |
| Shell.CurrentModuleAgreesWithRegistry | src/components/Shell.tsx:24-28 | the shell's hard-coded checks and the registry's `getModuleByPath` agree on every string |
| Shell.KeyPrefixResolves | src/components/Shell.tsx:25-26 | "/" + a remote key followed by anything resolves to that key |
| Shell.CurrentAction | src/components/Shell.tsx:30-36 | the action is "" or a single non-empty, slash-free segment of the pathname |
| Shell.RemoteSegmentIsKey | src/components/Shell.tsx:32 | the shell's first-segment test accepts exactly the names of the remote keys |
| Shell.NoActionAtRoot | src/components/Shell.tsx:30-36 | "/" has no action |
| Shell.NoActionOnBareModule | src/components/Shell.tsx:31-35 | "/module-x" and "/module-x/" have no action |
| Shell.NoActionUnderUnknown | src/components/Shell.tsx:32-35 | a path whose first segment is not a remote key has no action: that segment alone or followed by "/" and anything, after any run of leading slashes (such as "/unknown/x" or "//unknown/x") |
| Shell.SecondSegmentOnly | src/components/Shell.tsx:31-33 | only the second segment counts: "/key/a/anything" has module key and action "a" |
| Shell.NavigationRoundTrip | src/components/Shell.tsx:24-36 | the target "/key/slug" that the sidebar builds, for a remote key and a non-empty slash-free slug, resolves back to that key and that slug |
| Shell.ActionImpliesModule | src/components/Shell.tsx:24-36 | for a path that is '/' and then a non-slash character, a non-empty action implies the module is remote and is named by the first segment |
| Shell.DoubleSlashCounterexample | src/components/Shell.tsx:24-36 | without that precondition the implication fails: "//module-one/x" has action "x" but module "home" |
| Shell.Header | src/components/Shell.tsx:44-46 | three links, exactly one active, and a link is active exactly when following it resolves to the current module |
| Shell.Navigate | src/components/Shell.tsx:53 | the sidebar receives the module and the action derived from the new pathname, and its invariant is kept |
| Shell.ClickMarksClicked | src/components/Sidebar.tsx:55-60 | with the click taken as setting the pathname to the button's target verbatim (see "## Left out"): for a remote current module, a shown list and a non-empty slash-free slug, clicking a button stays in the same module, so no load starts and the list is kept; afterwards exactly the buttons with that slug are active (on "home" a click marks nothing, see `Shell.StaleLoadOnHome`) |
| Shell.HomeToAction | src/components/Sidebar.tsx:25-55 | going from "/" to "/key/slug" starts exactly one load, for that key, and shows the loading placeholder; once a non-empty list loads, exactly the entries with that slug are active |
| Shell.StaleLoadOnHome | src/components/Sidebar.tsx:26-36 | a load that settles after the user went home still fills the list; its buttons point at "/home/slug", which resolves to "home" with no action, so clicking one keeps the list and marks no button active |
| Sidebar.Mount | src/components/Sidebar.tsx:22-36 | the state after the mount effect: the list is empty; it is loading exactly when the module is remote, and then exactly one load is in flight, for that module |
| Sidebar.RunEffect | src/components/Sidebar.tsx:26-32 | the effect body: for "home" the list is emptied and nothing else changes, `loading` included; for a remote key `loading` is set, the list is kept and one new load for that key joins the loads in flight |
| Sidebar.Step | src/components/Sidebar.tsx:25-36 | every event keeps the invariant (loading only while some load is in flight, and every load in flight has an issued id and a remote key), and `current` follows the props; the per-event behaviour is stated by `ActionChangeStartsNothing`, `HomeClearsWithoutLoad`, `RemoteStartsOneLoad` and `SettleOverwrites` |
| Sidebar.RunPreservesInv | src/components/Sidebar.tsx:25-36 | any sequence of events, interleaved in any order, keeps that invariant |
| Sidebar.HomeClearsWithoutLoad | src/components/Sidebar.tsx:26-29 | entering "home" empties the list and starts no load; `loading` keeps its value |
| Sidebar.RemoteStartsOneLoad | src/components/Sidebar.tsx:31-32 | entering a remote key sets `loading` and starts exactly one new load, for that key; loads already in flight are untouched |
| Sidebar.ActionChangeStartsNothing | src/components/Sidebar.tsx:25-36 | a change of the current action alone starts no load and changes neither the list nor `loading` |
| Sidebar.SettleOverwrites | src/components/Sidebar.tsx:32-35 | a settling load sets the list to its result, or to empty on failure, and clears `loading`, whatever module is current |
| Sidebar.FailureLooksEmpty | src/components/Sidebar.tsx:34-48 | a failed load and a load that returned no actions both render the empty placeholder |
| Sidebar.SettledIsNotLoading | src/components/Sidebar.tsx:31-39 | once every load has settled, the loading placeholder is not shown |
| Sidebar.StaleLoadWins | src/components/Sidebar.tsx:31-35 | no staleness guard: when module two's load settles before module one's, module one's actions end up on screen while module two is current |
| Sidebar.EarlyLoadClearsLoading | src/components/Sidebar.tsx:31-35 | the earlier load settling clears `loading` while the later load is still in flight |
| Sidebar.NavigationTarget | src/components/Sidebar.tsx:60 | a button's target `/${current}/${slug}` has as segments the module key and then the slug's own segments |
| Sidebar.Render | src/components/Sidebar.tsx:38-72 | loading placeholder iff loading; otherwise the empty placeholder iff the list is empty; otherwise one button per action in list order, active iff its slug is the current action, targeting "/current/slug" |

## Left out

- The component loaders and action loaders in `src/config/modules.ts` (lines
  24-38) and `loadModuleActions` (lines 53-56). They are dynamic `import()`s,
  which are foreign network loads. A load's outcome arrives as the
  `LoadSettled` event's `Loaded`/`LoadFailed` parameter.
- The copy of `loadModuleActions` in `src/components/Sidebar.tsx` (lines
  5-13). It is the same foreign load, modelled the same way.
- The route switch and `Suspense` boundary in `src/components/Shell.tsx`
  (lines 57-63). These are router library semantics. One discrepancy follows
  from them: the router matches by segment, so "/module-oneX" highlights
  Module One in the header (`Shell.CurrentModule`) but mounts no module.
  A second one: a route matches case-insensitively unless it sets
  `caseSensitive`, so "/MODULE-ONE/x" mounts Module One while
  `Shell.CurrentModule` returns "home" and the header highlights Home.
- `src/App.tsx`, `src/components/NavLink.tsx`, `webpack.config.js` and
  `src/types/remotes.d.ts`. These are router wiring, CSS class selection,
  build configuration and type declarations, with no logic to model.
- The `ModuleKey` type that `Sidebar.tsx` and `Shell.tsx` import from
  `../types` is not part of this model. The model takes it to be the
  `ModuleKey` of `src/config/modules.ts`.
- JSX markup, styling and React's effect timing. The labels shown are kept as
  `title` fields, because `label` is a Dafny keyword.
- Settling an id that is not in flight: `Sidebar.Step` leaves the state
  unchanged. A promise settles only once, so the source never produces that
  event.
- Unmounting the sidebar while a load is in flight is not modelled.
- Shell.ClickMarksClicked: the click is modelled as setting the pathname to
  the button's target verbatim. The router's `navigate` cuts the target at the
  first '#' or '?', and the browser percent-encodes the pathname, so the lemma
  describes the program only for URL-safe slugs (no '#', '?', or characters
  the browser encodes). For a slug such as "a#b" the pathname becomes
  "/module-one/a" and the clicked button is not marked active. URL parsing
  belongs to the router and browser and is not part of this model.
- Shell.HomeToAction: the same verbatim reading of the navigation target,
  so it too holds for URL-safe slugs only.

=== FILE: paths.dfy ===
/** Path strings as the host reads them: a raw prefix test (JavaScript's
    `startsWith`), splitting on '/' (JavaScript's `split("/")`, which keeps
    empty pieces) and dropping the empty pieces (`filter(Boolean)`).
 */
module Paths {

  /** `s.startsWith(prefix)`: a raw character prefix, not a segment prefix. */
  predicate StartsWith(s: string, prefix: string) {
    prefix <= s
  }

  /** `s.split("/")`: the pieces between slashes, empty ones included. */
  function Split(s: string): (parts: seq<string>)
    ensures |parts| >= 1
    ensures forall i :: 0 <= i < |parts| ==> '/' !in parts[i]
    ensures |parts[0]| <= |s| && parts[0] == s[..|parts[0]|]
    ensures |s| > 0 && s[0] != '/' ==> parts[0] != ""
    decreases |s|
  {
    if |s| == 0 then [""]
    else
      var rest := Split(s[1..]);
      if s[0] == '/' then [""] + rest
      else [[s[0]] + rest[0]] + rest[1..]
  }

  /** `parts.join("/")`, the inverse of `Split`. */
  function Join(parts: seq<string>): string
    requires |parts| >= 1
  {
    if |parts| == 1 then parts[0] else parts[0] + "/" + Join(parts[1..])
  }

  /** `parts.filter(Boolean)`: the non-empty pieces, in order. */
  function NonEmpty(parts: seq<string>): (r: seq<string>)
    ensures |r| <= |parts|
    ensures forall i :: 0 <= i < |r| ==> r[i] != ""
    ensures forall x :: x in r <==> x in parts && x != ""
  {
    if |parts| == 0 then []
    else if parts[0] == "" then NonEmpty(parts[1..])
    else [parts[0]] + NonEmpty(parts[1..])
  }

  /** The non-empty '/'-separated segments of a path. */
  function Segments(path: string): (segs: seq<string>)
    ensures forall i :: 0 <= i < |segs| ==> segs[i] != "" && '/' !in segs[i]
  {
    var parts := Split(path);
    var segs := NonEmpty(parts);
    assert forall i :: 0 <= i < |segs| ==> segs[i] in parts;
    segs
  }

  /** Joining the pieces of a split gives back the string. */
  lemma {:induction false} JoinSplit(s: string)
    ensures Join(Split(s)) == s
    decreases |s|
  {
    if |s| > 0 {
      JoinSplit(s[1..]);
      var rest := Split(s[1..]);
      if s[0] == '/' {
        assert ([""] + rest)[1..] == rest;
      } else {
        var parts := [[s[0]] + rest[0]] + rest[1..];
        if |rest| > 1 {
          assert parts[1..] == rest[1..];
        }
      }
    }
  }

  /** A string without slashes is a single piece. */
  lemma {:induction false} SplitSlashFree(w: string)
    requires '/' !in w
    ensures Split(w) == [w]
    decreases |w|
  {
    if |w| > 0 {
      assert '/' !in w[1..] by {
        forall c | c in w[1..] ensures c != '/' {
          assert c in w;
        }
      }
      SplitSlashFree(w[1..]);
      assert [w[0]] + w[1..] == w;
    }
  }

  /** A slash-free word followed by '/' is split off as the first piece. */
  lemma {:induction false} SplitWordSlash(w: string, t: string)
    requires '/' !in w
    ensures Split(w + "/" + t) == [w] + Split(t)
    decreases |w|
  {
    var s := w + "/" + t;
    if |w| == 0 {
      assert s == "/" + t;
      assert s[1..] == t;
    } else {
      assert '/' !in w[1..] by {
        forall c | c in w[1..] ensures c != '/' {
          assert c in w;
        }
      }
      SplitWordSlash(w[1..], t);
      assert s[1..] == w[1..] + "/" + t;
      assert [w[0]] + w[1..] == w;
    }
  }

  /** Splitting the join of slash-free pieces gives back the pieces. */
  lemma {:induction false} SplitJoin(parts: seq<string>)
    requires |parts| >= 1
    requires forall i :: 0 <= i < |parts| ==> '/' !in parts[i]
    ensures Split(Join(parts)) == parts
    decreases |parts|
  {
    if |parts| == 1 {
      SplitSlashFree(parts[0]);
    } else {
      SplitJoin(parts[1..]);
      SplitWordSlash(parts[0], Join(parts[1..]));
      assert [parts[0]] + parts[1..] == parts;
    }
  }

  /** Dropping empty pieces distributes over concatenation. */
  lemma {:induction false} NonEmptyAppend(a: seq<string>, b: seq<string>)
    ensures NonEmpty(a + b) == NonEmpty(a) + NonEmpty(b)
    decreases |a|
  {
    if |a| > 0 {
      NonEmptyAppend(a[1..], b);
      assert (a + b)[1..] == a[1..] + b;
    } else {
      assert a + b == b;
    }
  }

  /** The segments of "w/t", for a non-empty slash-free word w, are w and then
      the segments of t. */
  lemma SegmentsWord(w: string, t: string)
    requires w != "" && '/' !in w
    ensures Segments(w + "/" + t) == [w] + Segments(t)
  {
    SplitWordSlash(w, t);
    NonEmptyAppend([w], Split(t));
  }

  /** The segments of "/w/t", for a non-empty slash-free word w, start with w. */
  lemma SegmentsWordSlash(w: string, t: string)
    requires w != "" && '/' !in w
    ensures Segments("/" + w + "/" + t) == [w] + Segments(t)
  {
    SplitWordSlash("", w + "/" + t);
    assert "" + "/" + (w + "/" + t) == "/" + w + "/" + t;
    SplitWordSlash(w, t);
    NonEmptyAppend([""], [w] + Split(t));
    NonEmptyAppend([w], Split(t));
  }

  /** A leading slash adds only an empty piece, so repeated slashes at the
      front of a path do not change its segments. */
  lemma SegmentsLeadingSlash(t: string)
    ensures Segments("/" + t) == Segments(t)
  {
    SplitWordSlash("", t);
    assert "" + "/" + t == "/" + t;
    NonEmptyAppend([""], Split(t));
  }

  /** Any run of leading slashes, none included, leaves the segments
      unchanged. */
  lemma {:induction false} SegmentsLeadingSlashes(lead: string, t: string)
    requires forall i :: 0 <= i < |lead| ==> lead[i] == '/'
    ensures Segments(lead + t) == Segments(t)
    decreases |lead|
  {
    if |lead| > 0 {
      SegmentsLeadingSlashes(lead[1..], t);
      assert lead == [lead[0]] + lead[1..] && lead[0] == '/';
      var u := lead[1..] + t;
      assert lead + t == "/" + u;
      SegmentsLeadingSlash(u);
      assert Segments(lead + t) == Segments(u);
    } else {
      assert lead + t == t;
    }
  }

  /** When a path starts with '/' and then a non-slash character, its first
      segment is the text right after that leading '/'. */
  lemma FirstSegmentAfterSlash(path: string)
    requires |path| >= 2 && path[0] == '/' && path[1] != '/'
    ensures |Segments(path)| >= 1
    ensures StartsWith(path, "/" + Segments(path)[0])
  {
    var rest := path[1..];
    assert path == "/" + rest;
    var p := Split(rest);
    assert Split(path) == [""] + p;
    NonEmptyAppend([""], p);
    assert p == [p[0]] + p[1..];
    NonEmptyAppend([p[0]], p[1..]);
    assert Segments(path)[0] == p[0];
    assert ("/" + p[0]) == path[..|p[0]| + 1];
  }
}

=== FILE: registry.dfy ===
/** The static registry of remote modules (config/modules.ts): which keys
    exist, the route prefix each one owns, and the first-match-wins resolver
    from a pathname to the owning module key.
 */
module Registry {
  import opened Paths

  /** `ModuleKey`: "home" is the host's own landing page, the others are remotes. */
  datatype ModuleKey = Home | ModuleOne | ModuleTwo

  /** `RemoteModuleKey`: every key except "home". */
  type RemoteModuleKey = k: ModuleKey | k != Home witness ModuleOne

  /** The string a key is written as in URLs and in the source. */
  function KeyName(k: ModuleKey): (name: string)
    ensures name != "" && '/' !in name
  {
    match k
    case Home => "home"
    case ModuleOne => "module-one"
    case ModuleTwo => "module-two"
  }

  /** One registry entry; `title` is the source's `label` field. The
      component and action loaders are foreign dynamic imports and are not
      part of the record here. */
  datatype ModuleConfig = ModuleConfig(key: RemoteModuleKey, title: string, path: string)

  /** `MODULES`: one entry per remote key, whose `key` field is its own record
      key and whose route prefix is "/" followed by that key. */
  function Modules(): (m: map<ModuleKey, ModuleConfig>)
    ensures forall k :: k in m <==> k != Home
    ensures forall k :: k in m ==> m[k].key == k && m[k].path == "/" + KeyName(k)
  {
    map[
      ModuleOne := ModuleConfig(ModuleOne, "Module One", "/module-one"),
      ModuleTwo := ModuleConfig(ModuleTwo, "Module Two", "/module-two")
    ]
  }

  /** `MODULE_KEYS = Object.keys(MODULES)`: every registered key exactly once,
      in declaration order. */
  function ModuleKeys(): (ks: seq<ModuleKey>)
    ensures forall i :: 0 <= i < |ks| ==> ks[i] in Modules()
    ensures forall k :: k in Modules() ==> k in ks
    ensures forall i, j :: 0 <= i < j < |ks| ==> ks[i] != ks[j]
  {
    [ModuleOne, ModuleTwo]
  }

  /** True when the registered route prefix of `k` is a raw prefix of `path`. */
  predicate Matches(k: ModuleKey, path: string)
    requires k in Modules()
  {
    StartsWith(path, Modules()[k].path)
  }

  /** No key of `ks` has a route prefix that starts `path`. */
  predicate NoneMatch(ks: seq<ModuleKey>, path: string)
    requires forall i :: 0 <= i < |ks| ==> ks[i] in Modules()
  {
    forall i :: 0 <= i < |ks| ==> !Matches(ks[i], path)
  }

  /** The loop of `getModuleByPath` over the keys `ks`: the position of the
      first key whose prefix matches, or |ks| when none does. */
  function ScanIndex(ks: seq<ModuleKey>, path: string): (i: nat)
    requires forall j :: 0 <= j < |ks| ==> ks[j] in Modules()
    ensures i <= |ks|
    ensures NoneMatch(ks[..i], path)
    ensures i < |ks| ==> Matches(ks[i], path)
  {
    if |ks| == 0 || Matches(ks[0], path) then 0
    else
      var i := 1 + ScanIndex(ks[1..], path);
      assert NoneMatch(ks[..i], path) by {
        forall j | 0 <= j < i ensures !Matches(ks[..i][j], path) {
          if j > 0 { assert ks[..i][j] == ks[1..][..i - 1][j - 1]; }
        }
      }
      i
  }

  /** The key the loop returns: the first key whose prefix matches, or "home"
      when none does. */
  function FirstMatch(ks: seq<ModuleKey>, path: string): (r: ModuleKey)
    requires forall i :: 0 <= i < |ks| ==> ks[i] in Modules()
    ensures r == Home <==> NoneMatch(ks, path)
    ensures r != Home ==>
      exists i :: 0 <= i < |ks| && ks[i] == r && Matches(r, path) && NoneMatch(ks[..i], path)
  {
    var i := ScanIndex(ks, path);
    if i < |ks| then ks[i]
    else
      assert ks[..i] == ks;
      Home
  }

  /** `getModuleByPath`: total over all strings; a remote key only when its
      route prefix starts the pathname, "home" exactly when no prefix does. */
  function GetModuleByPath(pathname: string): (r: ModuleKey)
    ensures r != Home ==> r in Modules() && StartsWith(pathname, Modules()[r].path)
    ensures r == Home <==> forall k :: k in Modules() ==> !StartsWith(pathname, Modules()[k].path)
  {
    var r := FirstMatch(ModuleKeys(), pathname);
    if r == Home then
      assert forall k :: k in Modules() ==> !Matches(k, pathname) by {
        forall k | k in Modules() ensures !Matches(k, pathname) {
          var i :| 0 <= i < |ModuleKeys()| && ModuleKeys()[i] == k;
        }
      }
      r
    else r
  }

  /** The same resolver with the registered prefixes written out. */
  lemma GetModuleByPathLiteral(pathname: string)
    ensures GetModuleByPath(pathname) == Home <==>
      !StartsWith(pathname, "/module-one") && !StartsWith(pathname, "/module-two")
    ensures GetModuleByPath(pathname) == ModuleOne <==> StartsWith(pathname, "/module-one")
    ensures GetModuleByPath(pathname) == ModuleTwo <==> StartsWith(pathname, "/module-two")
  {
    assert Modules()[ModuleOne].path == "/module-one";
    assert Modules()[ModuleTwo].path == "/module-two";
    OneMatchAtMost(pathname);
  }

  /** No registered prefix is a prefix of another registered prefix. */
  lemma PrefixesDisjoint(a: ModuleKey, b: ModuleKey)
    requires a in Modules() && b in Modules() && a != b
    ensures !StartsWith(Modules()[a].path, Modules()[b].path)
  {
    var pa, pb := Modules()[a].path, Modules()[b].path;
    // Both are 11 characters long and first differ at index 8 ('o' vs 't').
    assert |pa| == |pb| == 11;
    assert pa[8] != pb[8];
  }

  /** Two prefixes of the same string are prefixes of one another. */
  lemma PrefixesComparable(s: string, a: string, b: string)
    requires StartsWith(s, a) && StartsWith(s, b) && |a| <= |b|
    ensures StartsWith(b, a)
  {
    assert b[..|a|] == s[..|a|];
  }

  /** At most one registered prefix matches any pathname. */
  lemma OneMatchAtMost(pathname: string)
    ensures forall a, b ::
      (a in Modules() && b in Modules()
       && StartsWith(pathname, Modules()[a].path) && StartsWith(pathname, Modules()[b].path)) ==> a == b
  {
    forall a, b | a in Modules() && b in Modules()
      && StartsWith(pathname, Modules()[a].path) && StartsWith(pathname, Modules()[b].path)
      ensures a == b
    {
      if a != b {
        PrefixesComparable(pathname, Modules()[a].path, Modules()[b].path);
        PrefixesDisjoint(b, a);
        assert false;
      }
    }
  }

  /** Whenever a registered key in `ks` matches, the scan returns that key,
      wherever in `ks` it stands. */
  lemma FirstMatchIsTheMatch(ks: seq<ModuleKey>, pathname: string, k: ModuleKey)
    requires forall i :: 0 <= i < |ks| ==> ks[i] in Modules()
    requires k in ks && k in Modules() && Matches(k, pathname)
    ensures FirstMatch(ks, pathname) == k
  {
    var i :| 0 <= i < |ks| && ks[i] == k;
    assert !NoneMatch(ks, pathname);
    OneMatchAtMost(pathname);
  }

  /** Because at most one prefix matches, the scan order is irrelevant: any
      two orderings of the same registered keys resolve every path alike. */
  lemma OrderIrrelevant(ks1: seq<ModuleKey>, ks2: seq<ModuleKey>, pathname: string)
    requires forall i :: 0 <= i < |ks1| ==> ks1[i] in Modules()
    requires forall i :: 0 <= i < |ks2| ==> ks2[i] in Modules()
    requires forall k :: k in ks1 <==> k in ks2
    ensures FirstMatch(ks1, pathname) == FirstMatch(ks2, pathname)
  {
    var r1 := FirstMatch(ks1, pathname);
    if r1 != Home {
      FirstMatchIsTheMatch(ks2, pathname, r1);
    } else {
      assert NoneMatch(ks2, pathname) by {
        forall j | 0 <= j < |ks2| ensures !Matches(ks2[j], pathname) {
          assert ks2[j] in ks1;
        }
      }
    }
  }

  /** Matching is a raw `startsWith`: the bare prefix, a trailing slash, a
      sub-path and even a longer segment such as "/module-oneX" all resolve to
      the module. */
  lemma RawPrefixMatching(suffix: string)
    ensures GetModuleByPath("/module-one" + suffix) == ModuleOne
    ensures GetModuleByPath("/module-two" + suffix) == ModuleTwo
  {
    GetModuleByPathLiteral("/module-one" + suffix);
    GetModuleByPathLiteral("/module-two" + suffix);
    assert ("/module-one" + suffix)[..11] == "/module-one";
    assert ("/module-two" + suffix)[..11] == "/module-two";
  }
}

=== FILE: shell.dfy ===
/** The shell (components/Shell.tsx): the navigation state it derives from
    the pathname on every render, the header's three links, and how it feeds
    that state to the sidebar. The route switch that mounts a remote module's
    component is not part of this model.
 */
module Shell {
  import opened Paths
  import opened Registry
  import opened Sidebar

  /** `currentModule`: the shell's own hard-coded prefix checks, module one
      first. A remote key is returned only when "/" + that key starts the
      pathname, and "home" exactly when neither remote prefix does. */
  function CurrentModule(pathname: string): (r: ModuleKey)
    ensures r != Home ==> StartsWith(pathname, "/" + KeyName(r))
    ensures r == Home <==> forall k :: k != Home ==> !StartsWith(pathname, "/" + KeyName(k))
  {
    if StartsWith(pathname, "/module-one") then ModuleOne
    else if StartsWith(pathname, "/module-two") then ModuleTwo
    else Home
  }

  /** The shell's test on the first segment: is it one of the remote keys? */
  predicate IsRemoteSegment(seg: string) {
    seg == "module-one" || seg == "module-two"
  }

  /** `currentAction`: the second non-empty segment when the first one is a
      remote key, otherwise "". Whatever the pathname, the result is "" or a
      single non-empty segment of it, free of slashes. */
  function CurrentAction(pathname: string): (r: string)
    ensures r == "" || ('/' !in r && r in Segments(pathname))
  {
    var parts := Segments(pathname);
    if |parts| >= 2 && IsRemoteSegment(parts[0]) then parts[1] else ""
  }

  /** The shell's inline derivation and the registry's table-driven resolver
      agree on every string. */
  lemma CurrentModuleAgreesWithRegistry(pathname: string)
    ensures CurrentModule(pathname) == GetModuleByPath(pathname)
  {
    GetModuleByPathLiteral(pathname);
  }

  /** A pathname that begins with "/" and a remote key resolves to that key,
      whatever follows. */
  lemma KeyPrefixResolves(k: ModuleKey, suffix: string)
    requires k != Home
    ensures CurrentModule("/" + KeyName(k) + suffix) == k
  {
    CurrentModuleAgreesWithRegistry("/" + KeyName(k) + suffix);
    RawPrefixMatching(suffix);
    if k == ModuleOne {
      assert "/" + KeyName(k) + suffix == "/module-one" + suffix;
    } else {
      assert "/" + KeyName(k) + suffix == "/module-two" + suffix;
    }
  }

  /** The first segment passes the shell's test exactly when it names a
      remote key. */
  lemma RemoteSegmentIsKey(seg: string)
    ensures IsRemoteSegment(seg) <==> exists k :: k != Home && KeyName(k) == seg
  {
    if IsRemoteSegment(seg) {
      assert KeyName(if seg == "module-one" then ModuleOne else ModuleTwo) == seg;
    }
  }

  /** The root path has no action. */
  lemma NoActionAtRoot()
    ensures CurrentAction("/") == ""
  {
    SplitJoin(["", ""]);
    assert Join(["", ""]) == "/";
  }

  /** A bare module path, with or without a trailing slash, has no action. */
  lemma NoActionOnBareModule(k: ModuleKey)
    requires k != Home
    ensures CurrentAction("/" + KeyName(k)) == ""
    ensures CurrentAction("/" + KeyName(k) + "/") == ""
  {
    var w := KeyName(k);
    SegmentsWordSlash(w, "");
    assert "/" + w + "/" + "" == "/" + w + "/";
    assert Segments("") == [];
    SplitJoin(["", w]);
    assert Join(["", w]) == "/" + w;
    NonEmptyAppend([""], [w]);
    assert [""] + [w] == ["", w];
  }

  /** A path whose first segment is not a remote key has no action. Every
      path whose first segment is `first` is `first` alone or `first` + "/" +
      anything, after any run of slashes (such as "//unknown/x"). */
  lemma NoActionUnderUnknown(lead: string, first: string, rest: string)
    requires forall i :: 0 <= i < |lead| ==> lead[i] == '/'
    requires first != "" && '/' !in first && !IsRemoteSegment(first)
    ensures CurrentAction(lead + first) == ""
    ensures CurrentAction(lead + first + "/" + rest) == ""
  {
    SegmentsLeadingSlashes(lead, first);
    SplitSlashFree(first);
    assert NonEmpty([first]) == [first] by {
      assert [first][1..] == [];
    }
    assert lead + first + "/" + rest == lead + (first + "/" + rest);
    SegmentsLeadingSlashes(lead, first + "/" + rest);
    SegmentsWord(first, rest);
  }

  /** Only the second segment counts: whatever follows the action segment is
      ignored. */
  lemma SecondSegmentOnly(k: ModuleKey, action: string, rest: string)
    requires k != Home && action != "" && '/' !in action
    ensures CurrentAction("/" + KeyName(k) + "/" + action + "/" + rest) == action
    ensures CurrentModule("/" + KeyName(k) + "/" + action + "/" + rest) == k
  {
    var tail := action + "/" + rest;
    var path := "/" + KeyName(k) + "/" + tail;
    assert path == "/" + KeyName(k) + "/" + action + "/" + rest;
    SegmentsWordSlash(KeyName(k), tail);
    SegmentsWord(action, rest);
    var segs := Segments(path);
    assert segs == [KeyName(k), action] + Segments(rest);
    assert IsRemoteSegment(segs[0]) && segs[1] == action;
    KeyPrefixResolves(k, "/" + tail);
    assert path == "/" + KeyName(k) + ("/" + tail);
  }

  /** Round trip: the navigation target the sidebar builds for a remote key
      and a non-empty slash-free slug resolves back to that key and slug. */
  lemma NavigationRoundTrip(k: ModuleKey, slug: string)
    requires k != Home && slug != "" && '/' !in slug
    ensures CurrentModule(NavigationTarget(k, slug)) == k
    ensures CurrentAction(NavigationTarget(k, slug)) == slug
  {
    var target := NavigationTarget(k, slug);
    SplitSlashFree(slug);
    assert NonEmpty([slug]) == [slug] by {
      assert [slug][1..] == [];
    }
    assert Segments(target) == [KeyName(k), slug];
    KeyPrefixResolves(k, "/" + slug);
    assert target == "/" + KeyName(k) + ("/" + slug);
  }

  /** A non-empty action implies a remote module named by the first segment,
      provided the pathname starts with '/' and then a non-slash character. */
  lemma ActionImpliesModule(pathname: string)
    requires |pathname| >= 2 && pathname[0] == '/' && pathname[1] != '/'
    requires CurrentAction(pathname) != ""
    ensures CurrentModule(pathname) != Home
    ensures KeyName(CurrentModule(pathname)) == Segments(pathname)[0]
  {
    FirstSegmentAfterSlash(pathname);
    var seg := Segments(pathname)[0];
    if seg == "module-two" {
      assert !StartsWith(pathname, "/module-one") by {
        assert pathname[8] == 't';
      }
    }
  }

  /** Without that precondition the implication fails: a doubled leading
      slash, as in "//module-one/x", still yields the action, yet the module
      is "home". */
  lemma DoubleSlashCounterexample(k: ModuleKey, action: string)
    requires k != Home && action != "" && '/' !in action
    ensures CurrentAction("//" + KeyName(k) + "/" + action) == action
    ensures CurrentModule("//" + KeyName(k) + "/" + action) == Home
  {
    var q := "/" + KeyName(k) + "/" + action;
    var p := "//" + KeyName(k) + "/" + action;
    assert p == "/" + q;
    SegmentsLeadingSlash(q);
    SegmentsWordSlash(KeyName(k), action);
    SplitSlashFree(action);
    assert NonEmpty([action]) == [action] by {
      assert [action][1..] == [];
    }
    assert p[1] == '/';
  }

  /** One header link. */
  datatype HeaderLink = HeaderLink(to: string, title: string, active: bool)

  /** The header: Home, Module One and Module Two, each active when it is the
      current module. Exactly one link is active, and a link is active exactly
      when following it lands on the current module. */
  function Header(current: ModuleKey): (links: seq<HeaderLink>)
    ensures |links| == 3
    ensures exists i :: 0 <= i < 3 && links[i].active
    ensures forall i, j :: 0 <= i < j < 3 ==> !(links[i].active && links[j].active)
    ensures forall i :: 0 <= i < 3 ==> (links[i].active <==> CurrentModule(links[i].to) == current)
  {
    var links := [
      HeaderLink("/", "Home", current == Home),
      HeaderLink("/module-one", "Module One", current == ModuleOne),
      HeaderLink("/module-two", "Module Two", current == ModuleTwo)];
    assert CurrentModule("/") == Home by {
      assert |"/"| < |"/module-one"|;
    }
    assert CurrentModule("/module-one") == ModuleOne;
    assert CurrentModule("/module-two") == ModuleTwo by {
      assert "/module-two"[8] != "/module-one"[8];
    }
    assert links[if current == Home then 0 else if current == ModuleOne then 1 else 2].active;
    links
  }

  /** The shell passes the derived module and action to the sidebar on every
      navigation. */
  function Navigate(s: State, pathname: string): (t: State)
    ensures t.current == CurrentModule(pathname) && t.currentAction == CurrentAction(pathname)
    ensures Inv(s) ==> Inv(t)
  {
    Step(s, PropsChanged(CurrentModule(pathname), CurrentAction(pathname)))
  }

  /** With a remote module current and the list shown (not loading), clicking a
      button whose slug is non-empty and slash-free stays in the same module,
      so no load starts, and afterwards exactly the buttons carrying that slug
      are active. On "home" (after a stale load) a click marks nothing; see
      `StaleLoadOnHome`. The click sets the pathname to the target verbatim,
      which matches the router only for slugs without '#', '?' or characters
      the browser percent-encodes. */
  lemma ClickMarksClicked(s: State, i: nat)
    requires s.current != Home && !s.loading && 0 <= i < |s.actions|
    requires s.actions[i].slug != "" && '/' !in s.actions[i].slug
    ensures var v := Render(s);
      v.ButtonList? && i < |v.buttons| &&
      var t := Navigate(s, v.buttons[i].target);
      && t.pending == s.pending && t.actions == s.actions
      && Render(t).ButtonList?
      && forall j :: 0 <= j < |s.actions| ==>
           (Render(t).buttons[j].active <==> s.actions[j].slug == s.actions[i].slug)
  {
    var slug := s.actions[i].slug;
    NavigationRoundTrip(s.current, slug);
    var target := Render(s).buttons[i].target;
    assert target == NavigationTarget(s.current, slug);
    ActionChangeStartsNothing(s, slug);
  }

  /** Going from "/" to "/<key>/<slug>" (say "/module-two/add-card") starts
      exactly one load, for that key, and shows the loading placeholder; once
      the load settles with a non-empty list, exactly the entries carrying
      that slug are active. */
  lemma HomeToAction(k: ModuleKey, slug: string, xs: seq<Action>)
    requires k != Home && slug != "" && '/' !in slug && |xs| > 0
    ensures var s := Navigate(Mount(CurrentModule("/"), CurrentAction("/")), NavigationTarget(k, slug));
      && s.pending == map[0 := k] && Render(s) == LoadingPlaceholder
      && var v := Render(Step(s, LoadSettled(0, Loaded(xs))));
      && v.ButtonList? && |v.buttons| == |xs|
      && forall j :: 0 <= j < |xs| ==> (v.buttons[j].active <==> xs[j].slug == slug)
  {
    NoActionAtRoot();
    assert CurrentModule("/") == Home;
    NavigationRoundTrip(k, slug);
  }

  /** A load that settles after the user went home still fills the list; its
      buttons then point at "/home/<slug>", which the shell resolves to "home"
      with no action, so clicking one keeps the list and marks nothing active. */
  lemma StaleLoadOnHome(a: Action)
    requires a.slug != "" && '/' !in a.slug
    ensures var s := Step(Navigate(Mount(ModuleOne, ""), "/"), LoadSettled(0, Loaded([a])));
      && s.current == Home && Render(s).ButtonList?
      && |Render(s).buttons| == 1
      && Render(s).buttons[0].target == "/" + KeyName(Home) + "/" + a.slug
      && CurrentModule(Render(s).buttons[0].target) == Home
      && CurrentAction(Render(s).buttons[0].target) == ""
      && var t := Navigate(s, Render(s).buttons[0].target);
      && t.actions == s.actions && Render(t).ButtonList? && !Render(t).buttons[0].active
  {
    NoActionAtRoot();
    assert CurrentModule("/") == Home;
    var target := NavigationTarget(Home, a.slug);
    assert target[1] == 'h';
    SplitSlashFree(a.slug);
    assert NonEmpty([a.slug]) == [a.slug] by {
      assert [a.slug][1..] == [];
    }
    assert Segments(target) == [KeyName(Home), a.slug];
  }
}

=== FILE: sidebar.dfy ===
/** The sidebar (components/Sidebar.tsx): its `(actions, loading)` state, the
    effect that reacts to a change of the current module, the settling of the
    action-list loads that effect starts, and what it renders.

    React scheduling is replaced by explicit events applied one at a time; a
    load's completion is its own event, so completions may interleave with
    navigation and with each other in any order. The dynamic import behind a
    load is foreign: its outcome arrives as the event's `LoadResult`.
 */
module Sidebar {
  import opened Paths
  import opened Registry

  /** An action a remote module offers; `title` is the source's `label`. */
  datatype Action = Action(title: string, slug: string)

  /** How an action-list load settles. */
  datatype LoadResult = Loaded(actions: seq<Action>) | LoadFailed

  /** The sidebar's props (`current`, `currentAction`), its two state hooks
      (`actions`, `loading`), and the loads still in flight, by id. */
  datatype State = State(
    current: ModuleKey,
    currentAction: string,
    actions: seq<Action>,
    loading: bool,
    pending: map<nat, ModuleKey>,
    nextId: nat)

  datatype Event =
    | PropsChanged(newCurrent: ModuleKey, newAction: string)
    | LoadSettled(id: nat, result: LoadResult)

  datatype Button = Button(title: string, active: bool, target: string)

  /** The three things the sidebar can show. */
  datatype View = LoadingPlaceholder | EmptyPlaceholder | ButtonList(buttons: seq<Button>)

  /** Every load in flight has an id already handed out and a remote key, and
      the loading flag is only up while some load is in flight. */
  ghost predicate Inv(s: State) {
    && (s.loading ==> |s.pending| > 0)
    && (forall id :: id in s.pending ==> id < s.nextId && s.pending[id] != Home)
  }

  /** The effect body, run for `s.current`: "home" clears the list and starts
      nothing; a remote key raises `loading` and starts one load for it. */
  function RunEffect(s: State): (t: State)
    ensures t.current == s.current && t.currentAction == s.currentAction
    ensures s.current == Home ==>
      t.actions == [] && t.loading == s.loading && t.pending == s.pending && t.nextId == s.nextId
    ensures s.current != Home ==>
      && t.loading && t.actions == s.actions
      && t.pending.Keys == s.pending.Keys + {s.nextId} && t.pending[s.nextId] == s.current
      && (forall id :: id in s.pending && id != s.nextId ==> t.pending[id] == s.pending[id])
  {
    if s.current == Home then s.(actions := [])
    else s.(loading := true, pending := s.pending[s.nextId := s.current], nextId := s.nextId + 1)
  }

  /** The state after mounting: the first render sees the initial hooks (an
      empty list, not loading, so the empty placeholder), then the effect runs
      once for the initial module. */
  function Mount(current: ModuleKey, currentAction: string): (s: State)
    ensures Inv(s)
    ensures s.current == current && s.currentAction == currentAction
    ensures s.actions == []
    ensures s.loading <==> current != Home
    ensures |s.pending| == (if current == Home then 0 else 1)
    ensures current != Home ==> s.pending == map[0 := current]
  {
    RunEffect(State(current, currentAction, [], false, map[], 0))
  }

  /** One event. The effect depends on `current` only, so it runs when that
      prop changes and not when `currentAction` alone does. A settling load
      stores its list (or the empty list on failure) and always clears
      `loading`, whatever module is current by then. */
  function Step(s: State, e: Event): (t: State)
    ensures Inv(s) ==> Inv(t)
    ensures t.current == (if e.PropsChanged? then e.newCurrent else s.current)
  {
    match e
    case PropsChanged(c, a) =>
      var s' := s.(current := c, currentAction := a);
      if c == s.current then s' else RunEffect(s')
    case LoadSettled(id, r) =>
      if id !in s.pending then s
      else
        var list := if r.Loaded? then r.actions else [];
        s.(actions := list, loading := false, pending := s.pending - {id})
  }

  /** A sequence of events, applied in order. */
  function Run(s: State, es: seq<Event>): State
    decreases |es|
  {
    if |es| == 0 then s else Run(Step(s, es[0]), es[1..])
  }

  lemma {:induction false} RunPreservesInv(s: State, es: seq<Event>)
    requires Inv(s)
    ensures Inv(Run(s, es))
    decreases |es|
  {
    if |es| > 0 {
      RunPreservesInv(Step(s, es[0]), es[1..]);
    }
  }

  /** Where activating the button for `slug` navigates: `/${current}/${slug}`.
      Its segments are the module key followed by the slug's own segments. */
  function NavigationTarget(current: ModuleKey, slug: string): (target: string)
    ensures Segments(target) == [KeyName(current)] + Segments(slug)
  {
    SegmentsWordSlash(KeyName(current), slug);
    "/" + KeyName(current) + "/" + slug
  }

  /** What the sidebar shows: the loading placeholder while loading, else the
      empty placeholder for an empty list, else one button per action in list
      order, active exactly when its slug is the current action. */
  function Render(s: State): (v: View)
    ensures v == LoadingPlaceholder <==> s.loading
    ensures v == EmptyPlaceholder <==> !s.loading && s.actions == []
    ensures v.ButtonList? ==>
      && |v.buttons| == |s.actions|
      && forall i :: 0 <= i < |v.buttons| ==>
           && v.buttons[i].title == s.actions[i].title
           && (v.buttons[i].active <==> s.actions[i].slug == s.currentAction)
           && v.buttons[i].target == NavigationTarget(s.current, s.actions[i].slug)
  {
    if s.loading then LoadingPlaceholder
    else if |s.actions| == 0 then EmptyPlaceholder
    else ButtonList(seq(|s.actions|, i requires 0 <= i < |s.actions| =>
      Button(s.actions[i].title, s.currentAction == s.actions[i].slug,
             NavigationTarget(s.current, s.actions[i].slug))))
  }

  /** Entering "home" empties the list and starts no load; `loading` keeps
      whatever value it had. */
  lemma HomeClearsWithoutLoad(s: State, a: string)
    requires s.current != Home
    ensures var t := Step(s, PropsChanged(Home, a));
      t.actions == [] && t.loading == s.loading && t.pending == s.pending && t.nextId == s.nextId
  {
  }

  /** Entering a remote key raises `loading` and starts exactly one new load,
      for that key, leaving the loads already in flight alone. */
  lemma RemoteStartsOneLoad(s: State, k: ModuleKey, a: string)
    requires Inv(s) && k != Home && k != s.current
    ensures var t := Step(s, PropsChanged(k, a));
      && t.loading && t.actions == s.actions
      && s.nextId !in s.pending && t.pending.Keys == s.pending.Keys + {s.nextId}
      && t.pending[s.nextId] == k
      && (forall id :: id in s.pending ==> t.pending[id] == s.pending[id])
  {
  }

  /** A change of `currentAction` alone starts no load and leaves the list,
      the loading flag and the loads in flight as they were. */
  lemma ActionChangeStartsNothing(s: State, a: string)
    ensures Step(s, PropsChanged(s.current, a)) == s.(currentAction := a)
  {
  }

  /** A settling load sets the list to its result (empty on failure) and
      clears `loading`, without regard to which module is current. */
  lemma SettleOverwrites(s: State, id: nat, r: LoadResult)
    requires id in s.pending
    ensures var t := Step(s, LoadSettled(id, r));
      && t.actions == (if r.Loaded? then r.actions else [])
      && !t.loading && t.pending == s.pending - {id}
      && t.current == s.current && t.currentAction == s.currentAction
  {
  }

  /** A failed load and a load that returned no actions look the same. */
  lemma FailureLooksEmpty(s: State, id: nat)
    requires id in s.pending
    ensures Render(Step(s, LoadSettled(id, LoadFailed))) == EmptyPlaceholder
    ensures Render(Step(s, LoadSettled(id, Loaded([])))) == EmptyPlaceholder
  {
  }

  /** Once every load has settled, the loading placeholder is gone. */
  lemma SettledIsNotLoading(s: State)
    requires Inv(s) && |s.pending| == 0
    ensures Render(s) != LoadingPlaceholder
  {
  }

  /** No staleness guard: switching from module one to module two and then
      having module two's load settle before module one's leaves module one's
      actions on screen while module two is current. */
  lemma StaleLoadWins(one: seq<Action>, two: seq<Action>)
    ensures var s := Run(Mount(ModuleOne, ""), [
        PropsChanged(ModuleTwo, ""),
        LoadSettled(1, Loaded(two)),
        LoadSettled(0, Loaded(one))]);
      s.current == ModuleTwo && s.actions == one && !s.loading
  {
    var s0 := Mount(ModuleOne, "");
    var s1 := Step(s0, PropsChanged(ModuleTwo, ""));
    assert s1.pending == map[0 := ModuleOne, 1 := ModuleTwo];
    var s2 := Step(s1, LoadSettled(1, Loaded(two)));
    assert 0 in s2.pending;
    var s3 := Step(s2, LoadSettled(0, Loaded(one)));
    var es := [PropsChanged(ModuleTwo, ""), LoadSettled(1, Loaded(two)), LoadSettled(0, Loaded(one))];
    assert Run(s0, es) == s3 by {
      assert es[1..][1..][1..] == [];
      assert Run(s2, es[1..][1..]) == s3;
      assert Run(s1, es[1..]) == s3;
    }
  }

  /** The earlier load settling clears `loading` while the later load is
      still in flight, so the sidebar shows the earlier module's result
      instead of a loading placeholder. */
  lemma EarlyLoadClearsLoading(r: LoadResult)
    ensures var s := Run(Mount(ModuleOne, ""), [PropsChanged(ModuleTwo, ""), LoadSettled(0, r)]);
      !s.loading && s.current == ModuleTwo && s.pending == map[1 := ModuleTwo]
  {
    var s0 := Mount(ModuleOne, "");
    var s1 := Step(s0, PropsChanged(ModuleTwo, ""));
    var s2 := Step(s1, LoadSettled(0, r));
    assert s2.pending == map[1 := ModuleTwo];
    assert Run(s0, [PropsChanged(ModuleTwo, ""), LoadSettled(0, r)]) == s2 by {
      assert Run(s2, []) == s2;
      assert [PropsChanged(ModuleTwo, ""), LoadSettled(0, r)][1..] == [LoadSettled(0, r)];
      assert [LoadSettled(0, r)][1..] == [];
    }
  }
}
